=== FILE: README.md ===
# checktiktok — a Dafny model of the analysis pipeline

The bot takes a TikTok link from a chat message and opens it in a headless
browser. From the rendered page it reads the embedded `window.__NEXT_DATA__`
state and builds a small record: title, author, and the view, like, comment
and share counts. It flags the video as removed when the HTTP status is an
error or the page says "unavailable". It hashes the description and upserts
a snapshot row keyed by the url into SQLite. Finally it replies with the
numbers and four ✅/❌ verdicts.

This project models the pure part of that pipeline. The browser, the
database connection, the clock, SHA-1 and the chat transport become inputs
or function parameters. The modules follow the pipeline:

- `Text` (`text.dfy`): `str.strip()`, ASCII lower-casing and the `in` substring test.
- `Json` (`json.dfy`): the decoded page state (`None`, `bool`, `int`, `float`
  including infinities and NaN, `str`, `list`, `dict`), Python truthiness,
  `v[key]` and `v.get(key)`.
- `PyInt` (`pyint.dfy`): Python's `int()` on such a value. This includes the decimal
  text grammar with underscores, the whitespace `int()` skips, and the
  4300-digit limit. `str(n)` is its inverse.
- `Utf8` (`utf8.dfy`): `str.encode()`, plus a decoder used only to prove that
  encoding loses nothing. The decoder is more lenient than Python's: it
  accepts overlong forms.
- `Normalizer` (`normalizer.dfy`): the `try` block that fills the record. It comes with
  an independent "list of six assignments" reading that the prefix
  theorem connects it to.
- `Classifier` (`classifier.dfy`): the removal flag, the shadow-ban rule and `verdict`.
- `Fingerprint` (`fingerprint.dfy`): the bytes hashed into `desc_sha1`.
- `Snapshots` (`snapshots.dfy`): the `videos` table as a map from url to row, plus
  the AUTOINCREMENT counter. It also covers parameter binding and `INSERT OR REPLACE`.
- `Bot` (`bot.dfy`): `analyze_tiktok` plus its save, and `handle`. The whole pipeline is
  `(Extraction, Table) -> (Outcome, Table)`.

## Behaviour worth knowing

- The description digest is taken over `(title or "").encode()`. The title
  is not lower-cased first. `Fingerprint.DigestInputKeepsCase` shows that
  "A" and "a" reach the hash as different bytes.
- The only takedown marker is `"unavailable"`. A page that says only "this video
  is private" is not flagged (`Classifier.PrivateMarkerNotRecognised`).
- Counts are whatever `int()` returns, so they can be negative
  (`Normalizer.NegativeViewsKept`).
- Missing data does not fall back field by field. The six assignments share
  one `try`, so the first one that raises leaves every later field at its
  default (`Normalizer.NormalizeIsPrefix`, `Normalizer.BadViewsHideLaterCounts`).
- `removed_flag` is the integer 0 or 1. In the parsed record it is a boolean;
  the row stores it as 0/1.
- A replaced row does not keep its id. `INSERT OR REPLACE` deletes the old row
  and inserts a new one under the next AUTOINCREMENT id.
- The title is whatever JSON value sits under `desc`. A truthy title that is
  not text has no `encode`, and the resulting exception escapes the handler
  (`Bot.Uncaught.TitleNotText`). A list or dict author or title, or a count
  outside 64 bits, cannot be bound by `sqlite3` and also escapes. In every
  such case nothing is written.
- `author` and `title` are `TEXT` columns. A number or a bool bound into them
  is stored as its text: an author of `5` is stored as `'5'` and `True` as
  `'1'`. A NaN is stored as NULL.
- A count that is an infinity or NaN makes `int()` raise, which ends the
  assignments there like any other failure.

## Model

| member | source | states |
|---|---|---|
| `Text.Strip` | bot.py:77 | `strip()` of the message: the result is the slice after the leading whitespace run, only whitespace follows it, and it neither starts nor ends with whitespace |
| `Text.Trim` | bot.py:77 | the stripped text is the slice after the leading space run; everything after it is space; it neither starts nor ends with a space |
| `Text.TrimIdempotent` | bot.py:77 | stripping an already stripped text changes nothing |
| `Text.ToLower` | bot.py:56 | lower-casing keeps the length and maps every character through the ASCII lower-case map |
| `Text.Contains` | bot.py:56 | `needle in s` holds exactly when the needle occurs at some index of `s` |
| `Json.Index` | bot.py:47-53 | `v[key]` succeeds exactly when `v` is a dict holding `key`, and then gives the value under that key |
| `Json.Get` | bot.py:48-49 | `v.get(key)` succeeds exactly when `v` is a dict; it agrees with `v[key]` where that succeeds, and gives `None` for a missing key |
| `Json.Path` | bot.py:47 | the empty chain gives the value itself, and a one-key chain is exactly `v[key]`; with `Json.PathAppend` this fixes every longer chain as one subscript after another |
| `Json.PathAppend` | bot.py:47 | following one chain of subscripts and then another is the same as following both at once |
| `Json.FalsyHasNoPath` | bot.py:45-47 | a falsy page state never has the item path, so the `if j:` guard rejects nothing that the path walk would accept |
| `PyInt.ParseIntText` | bot.py:50-53 | `int()` of text succeeds exactly when the text, stripped of the spaces `int()` skips, is an optional sign and a digit group (single underscores) of at most 4300 digits; a `-` sign gives a value ≤ 0, otherwise ≥ 0 |
| `PyInt.Truncate` | bot.py:50-53 | `int()` of a float truncates toward zero: the result is within 1 of the input, on the same side of zero |
| `PyInt.ToInt` | bot.py:50-53 | `int()` passes `int` through, maps `bool` to 0/1, truncates a finite `float` toward zero, parses `str`, and raises on an infinity, NaN, `None`, `list` and `dict` |
| `PyInt.ShowNatLength` | bot.py:50-53 | a number below 10^k has at most k decimal digits, so every 64-bit integer is far inside the digit limit |
| `PyInt.ParseShow` | bot.py:50-53 | round trip: `int(str(n)) == n` for every integer within the digit limit, negative ones included |
| `PyInt.ParsePadded` | bot.py:50-53 | spaces `int()` skips, put around the decimal text of `n`, still read as `n` |
| `PyInt.LeadingZeroIgnored` | bot.py:50-53 | a run of digits reads as its decimal value, and a leading zero in front of it changes nothing |
| `PyInt.UnderscoreIgnored` | bot.py:50-53 | one underscore between two runs of digits changes neither the value nor whether `int()` succeeds |
| `PyInt.DoubleUnderscoreRejected` | bot.py:50 | `int("1__0")` raises, so the assignment fails |
| `PyInt.SeparatorNotSkipped` | bot.py:50 | `int()` does not skip U+001C, though `str.isspace()` accepts it |
| `PyInt.DecimalPointRejected` | bot.py:50 | `int("4.5")` raises |
| `Utf8.Encode` | bot.py:60 | the encoding is empty exactly for the empty text and has at least one byte per character |
| `Utf8.DecodeEncode` | bot.py:60 | decoding the UTF-8 encoding of any text gives the text back |
| `Utf8.EncodeInjective` | bot.py:60 | two texts with the same encoding are equal |
| `Normalizer.ItemOf` | bot.py:45-47 | the item exists exactly when the state exists and has the subscript path, and it is the value at the end of that path: the `if j:` test never decides anything |
| `Normalizer.Count` | bot.py:50-53 | `int(item["stats"][key])` succeeds exactly when the item is a dict whose `stats` is a dict holding `key` and `int()` accepts that value, and then gives that `int()` |
| `Normalizer.Normalize` | bot.py:44-54 | building the record never sets the removal flag, which keeps its default 0 until the status/HTML check (the field values are stated by `NormalizeIsPrefix`) |
| `Normalizer.NormalizeIsPrefix` | bot.py:44-54 | each field before the first failing assignment (order: title, author, views, likes, comments, shares) holds its assignment's value; each field from the failing one on keeps its default |
| `Normalizer.NoItemGivesDefault` | bot.py:44-47 | absent, falsy or path-less state gives the default record (no title or author, counts 0) and no assignment runs |
| `Normalizer.DescriptionWithoutStats` | bot.py:47-54 | an item with a text `desc` and no `stats` keeps that title and its `author` value, and all four counts stay 0 |
| `Normalizer.BadViewsHideLaterCounts` | bot.py:50-54 | a missing `playCount` leaves likes at 0 even when `diggCount` is present |
| `Normalizer.NegativeViewsKept` | bot.py:50 | a negative view count on the page is stored as it is; counts are not forced non-negative |
| `Classifier.Removed` | bot.py:56-57 | the flag is set exactly when the status is ≥ 400 or the lower-cased HTML contains "unavailable" |
| `Classifier.MarkerInAnyCase` | bot.py:56 | any spelling of the marker that lower-cases to "unavailable", anywhere in the page, sets the flag |
| `Classifier.RemovedIgnoresCase` | bot.py:56 | pages equal up to letter case get the same flag |
| `Classifier.NoMarkerWithoutU` | bot.py:56 | a page with no character that lower-cases to 'u' never mentions the marker |
| `Classifier.PrivateMarkerNotRecognised` | bot.py:56-57 | status 200 with "this video is private" is not flagged |
| `Classifier.Verdict` | bot.py:28-29 | `verdict(b)` is ❌ exactly when `b`, and ✅ exactly when not |
| `Classifier.Classify` | bot.py:90-93 | shadow-ban is ❌ iff views are 0 and likes or comments are positive; the removal line is ❌ iff the flag is set; mute and duplicate are always ✅ |
| `Classifier.ShadowBanExamples` | bot.py:90 | {views 0, likes 5} is flagged; {views 100, likes 5} is not |
| `Fingerprint.DigestInput` | bot.py:60 | a falsy title hashes the empty bytes, a text title hashes its UTF-8 encoding, and any other truthy title raises |
| `Fingerprint.DescDigest` | bot.py:25-26 | the digest exists exactly when the input bytes do, and it is the hash of those bytes |
| `Fingerprint.AbsentEqualsEmpty` | bot.py:60 | a missing title and an empty title give the same digest, the hash of no bytes |
| `Fingerprint.DigestInputDeterminesTitle` | bot.py:60 | two text titles that reach the hash as the same bytes are the same text |
| `Fingerprint.DigestInputKeepsCase` | bot.py:60 | the title is not case-normalised: "A" and "a" give different hash inputs |
| `Snapshots.BindInt` | bot.py:67-70 | an integer binds exactly when it fits in 64 bits, otherwise the statement fails with an overflow |
| `Snapshots.Bind` | bot.py:67-70 | a value fails to bind exactly when it is a list, a dict or an out-of-range integer; exactly `None` and NaN bind as NULL, `bool` as 0/1, an integer as INTEGER, a finite float as REAL, an infinity as a REAL infinity of its sign, and text as TEXT |
| `Snapshots.TextAffinity` | bot.py:18 | a `TEXT` column holds only NULL or text: NULL and text are kept, an integer becomes its decimal text, a finite real its rendering, and an infinity "Inf" or "-Inf" |
| `Snapshots.IntegerTextReadsBack` | bot.py:18 | the text a bound integer is stored as reads back with `int()` as the same integer |
| `Snapshots.NumericAuthorStoredAsText` | bot.py:18 | saving a numeric author stores text that `int()` reads back as the number; `True` is stored as "1" |
| `Snapshots.EmptyIsValid` | bot.py:15-22 | the freshly created table satisfies the id invariant |
| `Snapshots.InsertOrReplace` | bot.py:15-17 | the upsert fails only when the ids are exhausted; otherwise the url has exactly one row with the new columns, its id exceeds every id issued before, every other row is unchanged, and the id invariant holds |
| `Snapshots.Save` | bot.py:65-71 | the save succeeds exactly when every parameter binds and ids remain; reading the url back then gives the written values, with `author` and `title` converted by the `TEXT` affinity so that they are NULL or text; other rows are unchanged |
| `Snapshots.SaveTwice` | bot.py:67-69 | two `INSERT OR REPLACE` upserts to one url leave one row for it, holding the second upsert's columns; other rows are unchanged |
| `Snapshots.IdsIncrease` | bot.py:16 | a run of successful `INSERT OR REPLACE` upserts advances the AUTOINCREMENT counter by one per upsert and keeps the invariant |
| `Bot.Parse` | bot.py:42-57 | the parsed record is the normalised state with the removal flag set exactly when the status is ≥ 400 or the marker appears |
| `Bot.Analyze` | bot.py:31-71 | the load error comes back exactly when navigation fails, and then the table is untouched; a loaded page is analysed and saved exactly when its title can be encoded, every value (the four counts included) fits its column type and ids remain; no outcome except a returned record writes anything; a returned record is the parse of the loaded page and is stored under the url with its digest and a fresh id, with `author` and `title` as stored by the `TEXT` affinity; other rows unchanged |
| `Bot.LoadedPageIsSaved` | bot.py:58-63 | a loaded page whose title is text or falsy, and whose values all bind while ids remain, is analysed and saved |
| `Bot.UnstorablePageWritesNothing` | bot.py:60-70 | a loaded page that cannot be stored (title not text, an unbindable value such as a count of 2^63, ids exhausted) raises and leaves the table as it was |
| `Bot.DigestDependsOnlyOnTitle` | bot.py:60-62 | two analysed pages with the same title store the same digest, whatever their url, counts, status or time |
| `Bot.Gate` | bot.py:77-80 | a message is accepted exactly when its stripped text contains "tiktok.com", and the url is the stripped text |
| `Bot.Handle` | bot.py:76-95 | a rejected message gets the invalid-link answer and leaves the table alone; an accepted one fetches the stripped url, and the answer mirrors the analysis (report with verdicts, ❌ error line, or no reply after an exception) |
| `Bot.RejectedNeverFetches` | bot.py:77-82 | for a rejected message, the answer and the table do not depend on what fetching would return |
| `Bot.UnreachablePageWritesNothing` | bot.py:36-40 | an accepted link whose navigation fails gets "❌ Không tải được trang." and the table is unchanged |
| `Bot.GateStripsSpaces` | bot.py:77 | surrounding spaces never change whether a message is accepted or which url it yields |

## Left out

- Telegram transport: `start`, `main`, `ApplicationBuilder`, and the progress reply. Also left out is the text layout of the report (`title or '-'` and the counts line). A `Report` carries the record and the four verdict glyphs instead. These parts are delivery, not logic.
- Playwright: launching the browser, the context and page, `goto` with its 20-second timeout, `content`, `evaluate` and `close`. Only their results enter, as the `Extraction` value. The case where `goto` returns `None` is also left out. These are I/O and resource handling.
- How JavaScript values become Python values, for example which numbers arrive as `int` and which as `float`. The page state enters already decoded, with infinities and NaN as their own values.
- SQLite's rendering of a finite real as text (`%!.15g`). It is the parameter `realText`, because only its result reaches the row.
- SHA-1 itself. It is the parameter `sha1Hex`, a deterministic function of the bytes, because it is a foreign library call.
- aiosqlite connections, executing `CREATE TABLE` and `commit`. The table is a map from url to row with the AUTOINCREMENT counter.
- `datetime.utcnow()`: the capture time is the parameter `createdAt`. Also left out: `load_dotenv` and `TOKEN`, because they are ambient configuration.
- async/await scheduling. No logic here depends on it.
- PyInt.ParseIntText: treats non-ASCII Unicode decimal digits (Arabic-Indic digits, for example) as invalid. Python's `int()` accepts them. The digit limit of 4300 is the rule from Python 3.11 on. The 3.10.7, 3.9.14, 3.8.14 and 3.7.14 security releases have it too; releases before those have no limit.
- Text.ToLower: lower-cases ASCII letters only, where Python's `str.lower()` covers all of Unicode. The removal flag is unaffected, because it only tests for the all-ASCII word "unavailable". Apart from ASCII letters, only U+212A (which becomes 'k') and U+0130 (which becomes "i" plus U+0307) lower-case to ASCII. The word has no 'k', and its 'i' is followed by 'l', not U+0307.
- Utf8.Encode: does not model lone surrogate code points. Python's `encode()` would reject them, and Dafny strings cannot hold them.
- Classifier.Classify: the mute and duplicate verdicts are the fixed ✅ placeholders of the code, with no detection behind them.

=== FILE: bot.dfy ===
/** `analyze_tiktok` and `handle` with the browser, the database
    connection, the clock, the hash and the chat transport taken out:
    each arrives as a value or a function parameter. */
module Bot {
  import opened Wrappers
  import opened Text
  import opened Json
  import opened Normalizer
  import opened Classifier
  import opened Fingerprint
  import opened Snapshots
  import opened Utf8

  /** What the browser reports for one url: navigation raised, or the page
      loaded with a status, its HTML and the `window.__NEXT_DATA__` value
      (`None` when the page has none). */
  datatype Extraction = NavFailure | Loaded(status: int, html: string, state: Option<Value>)

  /** The error text returned when the page cannot be loaded. */
  const LoadError := "Không tải được trang."

  /** An exception that escapes `analyze_tiktok`. */
  datatype Uncaught =
    | TitleNotText          // `.encode()` on a truthy title that is not text
    | SaveFailed(error: SqlError)

  /** What `analyze_tiktok` ends with: the error dict, the parsed dict, or
      an exception propagating to the caller. */
  datatype Outcome = PageError(message: string) | Analysed(record: Parsed) | Raised(failure: Uncaught)

  /** The parsed dict of a loaded page: the normalised state plus the
      removal flag. */
  function Parse(status: int, html: string, state: Option<Value>): (p: Parsed)
    ensures p.removed <==> status >= 400 || MentionsMarker(html)
    ensures p.(removed := false) == Normalize(state)
  {
    Normalize(state).(removed := Removed(status, html))
  }

  /** When the record of a loaded page reaches the table: its title can be
      encoded, every value binds and AUTOINCREMENT has ids left. */
  predicate Storable(p: Parsed, t: Table) {
    && (!Truthy(p.title) || p.title.JStr?)
    && Bind(p.author).Success? && Bind(p.title).Success?
    && MinInt64 <= p.views <= MaxInt64 && MinInt64 <= p.likes <= MaxInt64
    && MinInt64 <= p.comments <= MaxInt64 && MinInt64 <= p.shares <= MaxInt64
    && t.lastId < MaxInt64
  }

  /** `analyze_tiktok(url)` followed by its `save_video` call. */
  function Analyze(page: Extraction, url: string, t: Table, sha1Hex: seq<byte> -> string,
                   createdAt: string, realText: real -> string): (res: (Outcome, Table))
    requires Valid(t)
    ensures Valid(res.1)
    ensures page.NavFailure? ==> res == (PageError(LoadError), t)
    ensures res.0.PageError? <==> page.NavFailure?
    ensures page.Loaded? ==> (res.0.Analysed? <==> Storable(Parse(page.status, page.html, page.state), t))
    ensures !res.0.Analysed? ==> res.1 == t
    ensures res.0.Analysed? ==> page.Loaded? && res.0.record == Parse(page.status, page.html, page.state)
    ensures res.0.Analysed? ==> res.1.rows.Keys == t.rows.Keys + {url}
    ensures res.0.Analysed? ==> forall u :: u in t.rows && u != url ==> res.1.rows[u] == t.rows[u]
    ensures res.0.Analysed? ==> res.1.rows[url].id > t.lastId
    ensures res.0.Analysed? ==> var p := res.0.record;
      && DigestInput(p.title).Some? && Bind(p.author).Success? && Bind(p.title).Success?
      && Lookup(res.1, url) == Some(Columns(
        TextAffinity(Bind(p.author).value, realText), TextAffinity(Bind(p.title).value, realText),
        p.views, p.likes, p.comments, p.shares,
        sha1Hex(DigestInput(p.title).value), if p.removed then 1 else 0, createdAt))
    ensures res.0.Raised? ==> page.Loaded?
  {
    match page
    case NavFailure => (PageError(LoadError), t)
    case Loaded(status, html, state) =>
      var p := Parse(status, html, state);
      match DescDigest(p.title, sha1Hex)
      case None => (Raised(TitleNotText), t)
      case Some(digest) =>
        match Save(t, url, p.author, p.title, p.views, p.likes, p.comments, p.shares,
                   digest, if p.removed then 1 else 0, createdAt, realText)
        case Failure(e) => (Raised(SaveFailed(e)), t)
        case Success(t2) => (Analysed(p), t2)
  }

  /** A loaded page is parsed and saved unless its title is truthy but not
      text, a value cannot be bound, or the ids are exhausted. */
  lemma LoadedPageIsSaved(status: int, html: string, state: Option<Value>, url: string,
                          t: Table, sha1Hex: seq<byte> -> string, createdAt: string,
                          realText: real -> string)
    requires Valid(t)
    requires Storable(Parse(status, html, state), t)
    ensures Analyze(Loaded(status, html, state), url, t, sha1Hex, createdAt, realText).0
         == Analysed(Parse(status, html, state))
  {
  }

  /** A loaded page that cannot be stored (a title that cannot be encoded,
      a value that cannot be bound, such as a count of 2^63, or no ids
      left) raises, and the table is left as it was. */
  lemma UnstorablePageWritesNothing(status: int, html: string, state: Option<Value>, url: string,
                                    t: Table, sha1Hex: seq<byte> -> string, createdAt: string,
                                    realText: real -> string)
    requires Valid(t) && !Storable(Parse(status, html, state), t)
    ensures var r := Analyze(Loaded(status, html, state), url, t, sha1Hex, createdAt, realText);
      r.0.Raised? && r.1 == t
  {
  }

  /** Two pages with the same title text get the same stored digest,
      whatever else differs between them. */
  lemma DigestDependsOnlyOnTitle(page1: Extraction, page2: Extraction, url1: string, url2: string,
                                 t1: Table, t2: Table, sha1Hex: seq<byte> -> string,
                                 at1: string, at2: string, realText: real -> string)
    requires Valid(t1) && Valid(t2)
    requires var r1 := Analyze(page1, url1, t1, sha1Hex, at1, realText);
      var r2 := Analyze(page2, url2, t2, sha1Hex, at2, realText);
      r1.0.Analysed? && r2.0.Analysed? && r1.0.record.title == r2.0.record.title
    ensures Analyze(page1, url1, t1, sha1Hex, at1, realText).1.rows[url1].columns.descSha1
         == Analyze(page2, url2, t2, sha1Hex, at2, realText).1.rows[url2].columns.descSha1
  {
  }

  /** The substring `handle` requires of a link. */
  const Domain := "tiktok.com"

  /** The stripped text contains the domain somewhere. */
  ghost predicate MentionsDomain(text: string) {
    exists i :: OccursAt(Strip(text), Domain, i)
  }

  /** The input gate of `handle`: the stripped message is the url, and it
      must contain the domain. */
  function Gate(text: string): (r: Option<string>)
    ensures r.Some? <==> MentionsDomain(text)
    ensures r.Some? ==> r.value == Strip(text)
  {
    var url := Strip(text);
    if Contains(url, Domain) then Some(url) else None
  }

  /** What `handle` answers. */
  datatype Reply =
    | InvalidLink                                    // the link was rejected
    | ErrorReply(text: string)                       // the error line
    | Report(record: Parsed, verdicts: Verdicts)     // the analysis message
    | NoReply(failure: Uncaught)                      // an exception ended the handler

  /** `handle` for one text message: gate, fetch, analyse, save, reply. */
  function Handle(text: string, fetch: string -> Extraction, t: Table,
                  sha1Hex: seq<byte> -> string, createdAt: string,
                  realText: real -> string): (res: (Reply, Table))
    requires Valid(t)
    ensures Valid(res.1)
    ensures !MentionsDomain(text) ==> res == (InvalidLink, t)
    ensures MentionsDomain(text) ==>
      var a := Analyze(fetch(Strip(text)), Strip(text), t, sha1Hex, createdAt, realText);
      && res.1 == a.1
      && (a.0.Analysed? ==> res.0 == Report(a.0.record, Classify(a.0.record)))
      && (a.0.PageError? ==> res.0 == ErrorReply(Problem + " " + a.0.message))
      && (a.0.Raised? ==> res.0 == NoReply(a.0.failure))
  {
    match Gate(text)
    case None => (InvalidLink, t)
    case Some(url) =>
      var (outcome, t2) := Analyze(fetch(url), url, t, sha1Hex, createdAt, realText);
      match outcome
      case PageError(message) => (ErrorReply(Problem + " " + message), t2)
      case Analysed(p) => (Report(p, Classify(p)), t2)
      case Raised(f) => (NoReply(f), t2)
  }

  /** A rejected message never reaches the browser: the answer and the
      table do not depend on what fetching would have returned. */
  lemma RejectedNeverFetches(text: string, fetch1: string -> Extraction, fetch2: string -> Extraction,
                             t: Table, sha1Hex: seq<byte> -> string, createdAt: string,
                          realText: real -> string)
    requires Valid(t) && !MentionsDomain(text)
    ensures Handle(text, fetch1, t, sha1Hex, createdAt, realText) == Handle(text, fetch2, t, sha1Hex, createdAt, realText)
    ensures Handle(text, fetch1, t, sha1Hex, createdAt, realText).1 == t
  {
  }

  /** A link whose page cannot be loaded gets the error reply and leaves
      the table as it was. */
  lemma UnreachablePageWritesNothing(text: string, fetch: string -> Extraction, t: Table,
                                     sha1Hex: seq<byte> -> string, createdAt: string,
                                     realText: real -> string)
    requires Valid(t) && MentionsDomain(text) && fetch(Strip(text)).NavFailure?
    ensures Handle(text, fetch, t, sha1Hex, createdAt, realText) == (ErrorReply(Problem + " " + LoadError), t)
  {
  }

  /** A link in surrounding spaces is the same link. */
  lemma GateStripsSpaces(text: string)
    ensures Gate(Strip(text)) == Gate(text)
  {
    TrimIdempotent(text, IsSpace);
  }
}

=== FILE: classifier.dfy ===
/** The removal flag computed from the page, the shadow-ban rule, and the
    two-glyph rendering of every verdict. */
module Classifier {
  import opened Text
  import opened Normalizer

  /** The takedown marker looked for in the lower-cased page text. */
  const Marker := "unavailable"

  /** The lower-cased page text has the marker somewhere. */
  ghost predicate MentionsMarker(html: string) {
    exists i :: OccursAt(ToLower(html), Marker, i)
  }

  /** The page is taken as removed when the HTTP status is an error or the
      lower-cased HTML mentions the marker. */
  function Removed(status: int, html: string): (r: bool)
    ensures r <==> status >= 400 || MentionsMarker(html)
  {
    status >= 400 || Contains(ToLower(html), Marker)
  }

  /** The marker matches in any letter case, anywhere in the page. */
  lemma MarkerInAnyCase(status: int, before: string, word: string, after: string)
    requires ToLower(word) == Marker
    ensures Removed(status, before + word + after)
  {
    ToLowerConcat(before + word, after);
    ToLowerConcat(before, word);
    ContainsMiddle(ToLower(before), Marker, ToLower(after));
  }

  /** Two pages equal up to letter case get the same flag. */
  lemma RemovedIgnoresCase(status: int, html1: string, html2: string)
    requires ToLower(html1) == ToLower(html2)
    ensures Removed(status, html1) == Removed(status, html2)
  {
  }

  /** A page with no letter that lower-cases to 'u' cannot mention the
      marker, whatever else it says. */
  lemma NoMarkerWithoutU(html: string)
    requires forall i :: 0 <= i < |html| ==> LowerChar(html[i]) != 'u'
    ensures !MentionsMarker(html)
  {
    var lower := ToLower(html);
    forall i
      ensures OccursAt(lower, Marker, i) ==> lower[i] == 'u'
    {
      OccursAtStart(lower, Marker, i);
    }
  }

  /** A page that says only "this video is private" is not flagged: the
      code knows no marker but "unavailable". */
  lemma PrivateMarkerNotRecognised()
    ensures !Removed(200, "this video is private")
  {
    NoMarkerWithoutU("this video is private");
  }

  /** The glyph for a verdict that found a problem. */
  const Problem := "\U{274C}"

  /** The glyph for a verdict that found nothing. */
  const Fine := "\U{2705}"

  /** `verdict(flag)`. */
  function Verdict(flag: bool): (r: string)
    ensures r == Problem <==> flag
    ensures r == Fine <==> !flag
  {
    if flag then Problem else Fine
  }

  /** The shadow-ban rule: no views, yet some likes or comments. */
  predicate ShadowBanned(p: Parsed) {
    p.views == 0 && (p.likes > 0 || p.comments > 0)
  }

  /** The four verdict lines of the report. */
  datatype Verdicts = Verdicts(shadowBan: string, removed: string, muted: string, duplicate: string)

  /** The verdicts shown for a parsed record; muting and duplicates are
      placeholders that always read as fine. */
  function Classify(p: Parsed): (v: Verdicts)
    ensures v.shadowBan == Problem <==> p.views == 0 && (p.likes > 0 || p.comments > 0)
    ensures v.shadowBan == Fine <==> !(p.views == 0 && (p.likes > 0 || p.comments > 0))
    ensures v.removed == Problem <==> p.removed
    ensures v.removed == Fine <==> !p.removed
    ensures v.muted == Fine && v.duplicate == Fine
  {
    Verdicts(Verdict(ShadowBanned(p)), Verdict(p.removed), Fine, Fine)
  }

  /** Zero views with likes is flagged; views with likes is not. */
  lemma ShadowBanExamples()
    ensures Classify(Default.(likes := 5)).shadowBan == Problem
    ensures Classify(Default.(views := 100, likes := 5)).shadowBan == Fine
    ensures Classify(Default.(views := 0, comments := 1)).shadowBan == Problem
    ensures Classify(Default).shadowBan == Fine
  {
  }
}

=== FILE: fingerprint.dfy ===
/** The description digest: `sha1_hex((title or "").encode())`. */
module Fingerprint {
  import opened Wrappers
  import opened Json
  import opened Utf8

  /** The bytes handed to the digest. A falsy title (`None`, empty text,
      `False`, 0, an empty list or dict) becomes the empty text; a truthy
      title that is not text has no `encode` and raises `AttributeError`,
      which nothing catches. */
  function DigestInput(title: Value): (r: Option<seq<byte>>)
    ensures !Truthy(title) ==> r == Some([])
    ensures title.JStr? ==> r == Some(Encode(title.s))
    ensures Truthy(title) && !title.JStr? ==> r.None?
  {
    if !Truthy(title) then Some(Encode(""))
    else if title.JStr? then Some(Encode(title.s))
    else None
  }

  /** `desc_sha1`, with the hash function as a parameter. */
  function DescDigest(title: Value, sha1Hex: seq<byte> -> string): (r: Option<string>)
    ensures r.Some? <==> DigestInput(title).Some?
    ensures r.Some? ==> r.value == sha1Hex(DigestInput(title).value)
  {
    var bytes :- DigestInput(title);
    Some(sha1Hex(bytes))
  }

  /** An absent title and an empty title give the same digest. */
  lemma AbsentEqualsEmpty(sha1Hex: seq<byte> -> string)
    ensures DescDigest(JNull, sha1Hex) == DescDigest(JStr(""), sha1Hex) == Some(sha1Hex([]))
  {
  }

  /** The digest input determines the title text: two text titles that
      reach the hash as the same bytes are the same text. */
  lemma DigestInputDeterminesTitle(a: string, b: string)
    requires DigestInput(JStr(a)) == DigestInput(JStr(b))
    ensures a == b
  {
    EncodeInjective(a, b);
  }

  /** The title is not case-normalised before hashing: "A" and "a" reach
      the hash as different bytes. */
  lemma DigestInputKeepsCase()
    ensures DigestInput(JStr("A")) != DigestInput(JStr("a"))
  {
    assert Encode("A") == [65 as byte];
    assert Encode("a") == [97 as byte];
  }
}

=== FILE: json.dfy ===
/** The embedded page state as Python holds it after decoding: `None`,
    `bool`, `int`, `float`, `str`, `list` and `dict` with string keys. A
    `float` is finite, an infinity (a page number such as `1e400` arrives
    as `float('inf')`) or NaN. */
module Json {
  import opened Wrappers

  datatype Value =
    | JNull
    | JBool(b: bool)
    | JInt(i: int)
    | JFloat(f: real)
    | JInfinity(negative: bool)
    | JNaN
    | JStr(s: string)
    | JArr(items: seq<Value>)
    | JObj(fields: map<string, Value>)

  /** Python truthiness: `None`, `False`, zero, and empty text, list or dict are false. */
  predicate Truthy(v: Value) {
    match v
    case JNull => false
    case JBool(b) => b
    case JInt(i) => i != 0
    case JFloat(f) => f != 0.0
    case JInfinity(_) => true
    case JNaN => true
    case JStr(s) => |s| > 0
    case JArr(items) => |items| > 0
    case JObj(fields) => |fields| > 0
  }

  /** `v[key]`: only a dict holding `key` answers; a missing key raises
      `KeyError` and every other kind of value raises `TypeError`. */
  function Index(v: Value, key: string): (r: Option<Value>)
    ensures r.Some? <==> v.JObj? && key in v.fields
    ensures r.Some? ==> r.value == v.fields[key]
  {
    if v.JObj? && key in v.fields then Some(v.fields[key]) else None
  }

  /** `v.get(key)`: a dict answers the value or `None`; any other kind of
      value has no `get` and raises `AttributeError`. */
  function Get(v: Value, key: string): (r: Option<Value>)
    ensures r.Some? <==> v.JObj?
    ensures Index(v, key).Some? ==> r == Index(v, key)
    ensures v.JObj? && Index(v, key).None? ==> r == Some(JNull)
  {
    if !v.JObj? then None
    else if key in v.fields then Some(v.fields[key])
    else Some(JNull)
  }

  /** `v[k0][k1]...`: the chain of subscripts, stopping at the first that raises. */
  function Path(v: Value, keys: seq<string>): (r: Option<Value>)
    ensures keys == [] ==> r == Some(v)
    ensures keys != [] && r.Some? ==> v.JObj? && keys[0] in v.fields
    ensures |keys| == 1 ==> r == Index(v, keys[0])
  {
    if keys == [] then Some(v)
    else
      var next :- Index(v, keys[0]);
      Path(next, keys[1..])
  }

  /** Following `a` and then `b` is following `a + b`. */
  lemma {:induction false} PathAppend(v: Value, a: seq<string>, b: seq<string>)
    ensures Path(v, a + b) == (if Path(v, a).Some? then Path(Path(v, a).value, b) else None)
    decreases |a|
  {
    if a != [] {
      assert (a + b)[0] == a[0];
      assert (a + b)[1..] == a[1..] + b;
      if Index(v, a[0]).Some? {
        PathAppend(Index(v, a[0]).value, a[1..], b);
      }
    } else {
      assert a + b == b;
    }
  }

  /** A falsy value never has a subscript path: the `if j:` guard in front
      of the path walk rejects nothing that the walk would accept. */
  lemma FalsyHasNoPath(v: Value, keys: seq<string>)
    requires keys != [] && !Truthy(v)
    ensures Path(v, keys).None?
  {
  }
}

=== FILE: normalizer.dfy ===
/** The record `analyze_tiktok` builds from the embedded page state, and
    the "prefix" behaviour of its single `try` block. */
module Normalizer {
  import opened Wrappers
  import opened Json
  import opened PyInt

  /** The parsed record: `title` and `author` are whatever the page put
      there (`JNull` for Python's `None`), the counts are Python integers. */
  datatype Parsed = Parsed(
    title: Value,
    author: Value,
    views: int,
    likes: int,
    comments: int,
    shares: int,
    removed: bool)

  /** The record before any field is assigned. */
  const Default := Parsed(JNull, JNull, 0, 0, 0, 0, false)

  /** Where the video's data sits inside the page state. */
  const ItemPath: seq<string> := ["props", "pageProps", "itemInfo", "itemStruct"]

  /** The keys of the four counters under `stats`, in assignment order. */
  const CountKeys: seq<string> := ["playCount", "diggCount", "commentCount", "shareCount"]

  /** `int(item["stats"][key])`: it succeeds exactly when `item` is a dict
      whose `stats` is a dict holding `key`, and `int()` accepts that value. */
  function Count(item: Value, key: string): (r: Option<int>)
    ensures r.Some? <==>
      && item.JObj? && "stats" in item.fields && item.fields["stats"].JObj?
      && key in item.fields["stats"].fields && ToInt(item.fields["stats"].fields[key]).Some?
    ensures r.Some? ==> r == ToInt(item.fields["stats"].fields[key])
  {
    var stats :- Index(item, "stats");
    var raw :- Index(stats, key);
    ToInt(raw)
  }

  /** The item the `try` block works on, if the state is truthy and the
      path can be followed. The truthiness test never decides anything:
      the item exists exactly when the path does. */
  function ItemOf(state: Option<Value>): (r: Option<Value>)
    ensures r.Some? <==> state.Some? && Path(state.value, ItemPath).Some?
    ensures r.Some? ==> r == Path(state.value, ItemPath)
  {
    if state.None? then None
    else if !Truthy(state.value) then
      FalsyHasNoPath(state.value, ItemPath);
      None
    else Path(state.value, ItemPath)
  }

  /** The `if j:` / `try` / `except: pass` block: the six assignments run in
      order and the first one that raises abandons the rest. */
  function Normalize(state: Option<Value>): (r: Parsed)
    ensures !r.removed
  {
    match ItemOf(state)
    case None => Default
    case Some(item) =>
      match Get(item, "desc")
      case None => Default
      case Some(title) =>
        var p1 := Default.(title := title);
        match Get(item, "author")
        case None => p1
        case Some(author) =>
          var p2 := p1.(author := author);
          match Count(item, CountKeys[0])
          case None => p2
          case Some(views) =>
            var p3 := p2.(views := views);
            match Count(item, CountKeys[1])
            case None => p3
            case Some(likes) =>
              var p4 := p3.(likes := likes);
              match Count(item, CountKeys[2])
              case None => p4
              case Some(comments) =>
                var p5 := p4.(comments := comments);
                match Count(item, CountKeys[3])
                case None => p5
                case Some(shares) => p5.(shares := shares)
  }

  // An independent reading of the `try` block as a list of six
  // assignments, each evaluated on its own.

  /** The value one assignment stores. */
  datatype Field = TextField(json: Value) | NumberField(n: int)

  const FieldCount := 6

  /** Field `f` of a record, in assignment order:
      title, author, views, likes, comments, shares. */
  function FieldOf(p: Parsed, f: nat): Field
    requires f < FieldCount
  {
    if f == 0 then TextField(p.title)
    else if f == 1 then TextField(p.author)
    else if f == 2 then NumberField(p.views)
    else if f == 3 then NumberField(p.likes)
    else if f == 4 then NumberField(p.comments)
    else NumberField(p.shares)
  }

  /** What the right-hand side of assignment `f` evaluates to on `item`,
      or `None` if it raises. */
  function Attempt(item: Value, f: nat): Option<Field>
    requires f < FieldCount
  {
    if f < 2 then
      var v :- Get(item, if f == 0 then "desc" else "author");
      Some(TextField(v))
    else
      var n :- Count(item, CountKeys[f - 2]);
      Some(NumberField(n))
  }

  /** The outcomes of the six assignments; all fail when there is no item. */
  function Attempts(state: Option<Value>): (r: seq<Option<Field>>)
    ensures |r| == FieldCount
  {
    match ItemOf(state)
    case None => [None, None, None, None, None, None]
    case Some(item) =>
      [Attempt(item, 0), Attempt(item, 1), Attempt(item, 2),
       Attempt(item, 3), Attempt(item, 4), Attempt(item, 5)]
  }

  /** The index of the first failing outcome, or the length if none fails. */
  function FirstFailure<T>(outcomes: seq<Option<T>>): (k: nat)
    ensures k <= |outcomes|
    ensures forall j :: 0 <= j < k ==> outcomes[j].Some?
    ensures k < |outcomes| ==> outcomes[k].None?
  {
    if outcomes == [] || outcomes[0].None? then 0 else 1 + FirstFailure(outcomes[1..])
  }

  /** How many fields the `try` block assigns before it stops. */
  function Reached(state: Option<Value>): nat {
    FirstFailure(Attempts(state))
  }

  /** The prefix property: every field before the first failing assignment
      holds the value its assignment computed, and every field from the
      failing one on keeps its default. */
  lemma NormalizeIsPrefix(state: Option<Value>, f: nat)
    requires f < FieldCount
    ensures Reached(state) <= FieldCount
    ensures f < Reached(state) ==> FieldOf(Normalize(state), f) == Attempts(state)[f].value
    ensures f >= Reached(state) ==> FieldOf(Normalize(state), f) == FieldOf(Default, f)
  {
    var a := Attempts(state);
    var p := Normalize(state);
    if item :| ItemOf(state) == Some(item) {
      var title, author := Get(item, "desc"), Get(item, "author");
      var views, likes := Count(item, CountKeys[0]), Count(item, CountKeys[1]);
      var comments, shares := Count(item, CountKeys[2]), Count(item, CountKeys[3]);
      assert a[0] == (if title.Some? then Some(TextField(title.value)) else None);
      assert a[1] == (if author.Some? then Some(TextField(author.value)) else None);
      assert a[2] == (if views.Some? then Some(NumberField(views.value)) else None);
      assert a[3] == (if likes.Some? then Some(NumberField(likes.value)) else None);
      assert a[4] == (if comments.Some? then Some(NumberField(comments.value)) else None);
      assert a[5] == (if shares.Some? then Some(NumberField(shares.value)) else None);
      // `get` fails on both keys or on neither: only on a non-dict item.
      if title.None? {
        assert p == Default;
      } else if views.None? {
        assert p == Default.(title := title.value, author := author.value);
      } else if likes.None? {
        assert p == Default.(title := title.value, author := author.value, views := views.value);
      } else if comments.None? {
        assert p == Default.(title := title.value, author := author.value, views := views.value,
                             likes := likes.value);
      } else if shares.None? {
        assert p == Default.(title := title.value, author := author.value, views := views.value,
                             likes := likes.value, comments := comments.value);
      } else {
        assert p == Parsed(title.value, author.value, views.value, likes.value, comments.value,
                           shares.value, false);
      }
    }
  }

  /** No state, a falsy state, or a state without the item path gives the
      default record. */
  lemma NoItemGivesDefault(state: Option<Value>)
    requires state.None? || !Truthy(state.value) || Path(state.value, ItemPath).None?
    ensures Normalize(state) == Default
    ensures Reached(state) == 0
  {
  }

  /** An item with a description but no `stats` keeps the description and
      the author, and all four counts stay 0. */
  lemma DescriptionWithoutStats(state: Value, desc: string)
    requires Path(state, ItemPath).Some?
    requires var item := Path(state, ItemPath).value;
      item.JObj? && "desc" in item.fields && item.fields["desc"] == JStr(desc)
      && "stats" !in item.fields
    ensures Normalize(Some(state)).title == JStr(desc)
    ensures var item := Path(state, ItemPath).value;
      Normalize(Some(state)).author == Get(item, "author").value
    ensures Normalize(Some(state)).views == 0 && Normalize(Some(state)).likes == 0
    ensures Normalize(Some(state)).comments == 0 && Normalize(Some(state)).shares == 0
  {
    var item := Path(state, ItemPath).value;
    assert ItemOf(Some(state)) == Some(item);
    assert Get(item, "desc") == Some(JStr(desc));
    assert Count(item, CountKeys[0]).None?;
  }

  /** A view count that cannot be converted hides the likes, comments and
      shares even when they are present and well formed. */
  lemma BadViewsHideLaterCounts(state: Value, likes: int)
    requires Path(state, ItemPath).Some?
    requires var item := Path(state, ItemPath).value;
      item.JObj? && "stats" in item.fields
      && var stats := item.fields["stats"];
      stats.JObj? && "playCount" !in stats.fields
      && "diggCount" in stats.fields && stats.fields["diggCount"] == JInt(likes)
    ensures Normalize(Some(state)).likes == 0
  {
    var item := Path(state, ItemPath).value;
    assert ItemOf(Some(state)) == Some(item);
    assert Count(item, CountKeys[0]).None?;
  }

  /** Counts are not guaranteed non-negative: a negative view count on the
      page comes through unchanged. */
  lemma NegativeViewsKept(state: Value, views: int)
    requires views < 0
    requires Path(state, ItemPath).Some?
    requires var item := Path(state, ItemPath).value;
      item.JObj? && "stats" in item.fields
      && var stats := item.fields["stats"];
      stats.JObj? && "playCount" in stats.fields && stats.fields["playCount"] == JInt(views)
    ensures Normalize(Some(state)).views == views < 0
  {
    var item := Path(state, ItemPath).value;
    assert ItemOf(Some(state)) == Some(item);
    assert Get(item, "desc").Some? && Get(item, "author").Some?;
    assert Count(item, CountKeys[0]) == Some(views);
  }
}

=== FILE: pyint.dfy ===
/** Python's built-in `int()` applied to a decoded JSON value, and its
    inverse on integers, `str()`. */
module PyInt {
  import opened Wrappers
  import opened Text
  import opened Json

  /** Python 3.11+ refuses to convert decimal text of more than this many
      digits (`sys.int_info.default_max_str_digits`). */
  const MaxStrDigits := 4300

  predicate IsDigit(c: char) {
    '0' <= c <= '9'
  }

  predicate AllDigits(d: string) {
    forall i :: 0 <= i < |d| ==> IsDigit(d[i])
  }

  /** The digit part `int()` accepts: ASCII digits, optionally separated by
      single underscores, starting and ending with a digit. */
  predicate DigitGroup(b: string) {
    && |b| > 0
    && IsDigit(b[0])
    && IsDigit(b[|b| - 1])
    && (forall i :: 0 <= i < |b| ==> IsDigit(b[i]) || b[i] == '_')
    && (forall i :: 0 <= i < |b| - 1 && b[i] == '_' ==> b[i + 1] != '_')
  }

  /** `b` with its underscores removed, keeping everything else in order. */
  function DropUnderscores(b: string): (d: string)
    ensures |d| <= |b|
    ensures forall i :: 0 <= i < |d| ==> d[i] != '_' && d[i] in b
    ensures (forall i :: 0 <= i < |b| ==> b[i] != '_') ==> d == b
  {
    if b == [] then []
    else if b[0] == '_' then DropUnderscores(b[1..])
    else [b[0]] + DropUnderscores(b[1..])
  }

  function DigitValue(c: char): nat
    requires IsDigit(c)
  {
    c as int - '0' as int
  }

  /** The value of a decimal digit string, most significant digit first. */
  function DigitsValue(d: string): nat
    requires AllDigits(d)
  {
    if d == [] then 0 else DigitsValue(d[..|d| - 1]) * 10 + DigitValue(d[|d| - 1])
  }

  /** Splits an optional leading sign off `t`: (negative?, rest). */
  function SplitSign(t: string): (bool, string) {
    if |t| > 0 && (t[0] == '-' || t[0] == '+') then (t[0] == '-', t[1..]) else (false, t)
  }

  /** `int(s)` for a `str` argument, in base 10: optional surrounding
      spaces, an optional sign, then a digit group of at most
      `MaxStrDigits` digits; anything else raises `ValueError`. */
  function ParseIntText(s: string): (r: Option<int>)
    ensures r.Some? ==> DigitGroup(SplitSign(Trim(s, IsNumberSpace)).1)
    ensures r.Some? && SplitSign(Trim(s, IsNumberSpace)).0 ==> r.value <= 0
    ensures r.Some? && !SplitSign(Trim(s, IsNumberSpace)).0 ==> r.value >= 0
    ensures (&& DigitGroup(SplitSign(Trim(s, IsNumberSpace)).1)
             && |DropUnderscores(SplitSign(Trim(s, IsNumberSpace)).1)| <= MaxStrDigits) ==> r.Some?
  {
    var (negative, body) := SplitSign(Trim(s, IsNumberSpace));
    if !DigitGroup(body) then None
    else
      var d := DropUnderscores(body);
      if |d| > MaxStrDigits then None
      else
        var magnitude: int := DigitsValue(d);
        Some(if negative then -magnitude else magnitude)
  }

  /** Python's `int(f)` for a float: truncation toward zero. */
  function Truncate(f: real): (r: int)
    ensures 0.0 <= f ==> 0 <= r && r as real <= f < (r + 1) as real
    ensures f < 0.0 ==> r <= 0 && (r - 1) as real < f <= r as real
  {
    if f >= 0.0 then f.Floor else -((-f).Floor)
  }

  /** Python's `int(v)` for a decoded JSON value: `bool` and `int` pass
      through, a finite `float` truncates, an infinity raises `OverflowError`
      and NaN `ValueError`, `str` is parsed, and `None`, `list` and `dict`
      raise `TypeError`. */
  function ToInt(v: Value): (r: Option<int>)
    ensures v.JInt? ==> r == Some(v.i)
    ensures v.JBool? ==> r == Some(if v.b then 1 else 0)
    ensures v.JNull? || v.JArr? || v.JObj? || v.JInfinity? || v.JNaN? ==> r.None?
    ensures v.JStr? ==> r == ParseIntText(v.s)
    ensures v.JFloat? ==> r == Some(Truncate(v.f))
  {
    match v
    case JNull => None
    case JBool(b) => Some(if b then 1 else 0)
    case JInt(i) => Some(i)
    case JFloat(f) => Some(Truncate(f))
    case JInfinity(_) => None
    case JNaN => None
    case JStr(s) => ParseIntText(s)
    case JArr(_) => None
    case JObj(_) => None
  }

  function DigitChar(k: nat): (c: char)
    requires k < 10
    ensures IsDigit(c) && DigitValue(c) == k
  {
    ('0' as int + k) as char
  }

  /** Python's `str(n)` for a non-negative integer. */
  function ShowNat(n: nat): (r: string)
    ensures |r| > 0 && AllDigits(r)
    ensures r[0] == '0' ==> n == 0
  {
    if n < 10 then [DigitChar(n)] else ShowNat(n / 10) + [DigitChar(n % 10)]
  }

  /** `10` to the power `k`. */
  function Ten(k: nat): nat {
    if k == 0 then 1 else 10 * Ten(k - 1)
  }

  /** A number below `10^k` has at most `k` digits. */
  lemma {:induction false} ShowNatLength(n: nat, k: nat)
    requires 1 <= k && n < Ten(k)
    ensures |ShowNat(n)| <= k
    decreases k
  {
    if n >= 10 {
      assert Ten(1) == 10;
      ShowNatLength(n / 10, k - 1);
    }
  }

  /** Python's `str(n)`. */
  function Show(n: int): string {
    if n < 0 then "-" + ShowNat(-n) else ShowNat(n)
  }

  /** Reading back the digits of `n` gives `n`. */
  lemma {:induction false} ShowNatValue(n: nat)
    ensures DigitsValue(ShowNat(n)) == n
  {
    if n >= 10 {
      var s := ShowNat(n);
      assert s[..|s| - 1] == ShowNat(n / 10);
      ShowNatValue(n / 10);
    }
  }

  /** A text whose two ends are not spaces is left alone by trimming. */
  lemma TrimKeeps(s: string, sp: char -> bool)
    requires |s| > 0 && !sp(s[0]) && !sp(s[|s| - 1])
    ensures Trim(s, sp) == s
  {
    assert LeadingCount(s, sp) == 0;
    assert TrailingCount(s, sp) == 0;
  }

  /** What `int()` sees of `str(n)`: no surrounding space, and the sign
      splits off to leave exactly the digits of the magnitude. */
  lemma ShowShape(n: int)
    ensures |Show(n)| > 0 && !IsNumberSpace(Show(n)[0]) && !IsNumberSpace(Show(n)[|Show(n)| - 1])
    ensures Trim(Show(n), IsNumberSpace) == Show(n)
    ensures SplitSign(Show(n)) == (n < 0, ShowNat(if n < 0 then -n else n))
  {
    var m: nat := if n < 0 then -n else n;
    var digits := ShowNat(m);
    var s := Show(n);
    assert IsDigit(digits[0]) && IsDigit(digits[|digits| - 1]);
    assert s[|s| - 1] == digits[|digits| - 1];
    TrimKeeps(s, IsNumberSpace);
    if n < 0 {
      assert s[1..] == digits;
    }
  }

  /** Round trip: `int(str(n)) == n` whenever `str(n)` is within the digit
      limit, so a count the page serialises as decimal text is read back
      exactly, negative ones included. */
  lemma ParseShow(n: int)
    requires |ShowNat(if n < 0 then -n else n)| <= MaxStrDigits
    ensures ParseIntText(Show(n)) == Some(n)
  {
    var m: nat := if n < 0 then -n else n;
    var digits := ShowNat(m);
    ShowShape(n);
    assert DigitGroup(digits);
    assert DropUnderscores(digits) == digits;
    ShowNatValue(m);
  }

  /** `int()` sees only the trimmed text. */
  lemma ParseDependsOnTrim(s: string, t: string)
    requires Trim(s, IsNumberSpace) == Trim(t, IsNumberSpace)
    ensures ParseIntText(s) == ParseIntText(t)
  {
  }

  /** Spaces around the number do not matter: `int(pre + str(n) + post)`
      is `n` for any runs of spaces `int()` skips. */
  lemma ParsePadded(pre: string, n: int, post: string)
    requires forall i :: 0 <= i < |pre| ==> IsNumberSpace(pre[i])
    requires forall i :: 0 <= i < |post| ==> IsNumberSpace(post[i])
    requires |ShowNat(if n < 0 then -n else n)| <= MaxStrDigits
    ensures ParseIntText(pre + Show(n) + post) == Some(n)
  {
    ShowShape(n);
    TrimPadding(pre, Show(n), post, IsNumberSpace);
    ParseShow(n);
    ParseDependsOnTrim(pre + Show(n) + post, Show(n));
  }

  /** Removing underscores distributes over concatenation. */
  lemma {:induction false} DropUnderscoresConcat(a: string, b: string)
    ensures DropUnderscores(a + b) == DropUnderscores(a) + DropUnderscores(b)
    decreases |a|
  {
    if a == [] {
      assert a + b == b;
    } else {
      assert (a + b)[0] == a[0];
      assert (a + b)[1..] == a[1..] + b;
      DropUnderscoresConcat(a[1..], b);
    }
  }

  /** A leading zero digit adds nothing to the value. */
  lemma {:induction false} LeadingZeroValue(d: string)
    requires AllDigits(d)
    ensures AllDigits("0" + d) && DigitsValue("0" + d) == DigitsValue(d)
    decreases |d|
  {
    var z := "0" + d;
    assert forall i :: 0 < i < |z| ==> z[i] == d[i - 1];
    if d != [] {
      assert z[..|z| - 1] == "0" + d[..|d| - 1];
      LeadingZeroValue(d[..|d| - 1]);
    }
  }

  /** `int()` ignores a leading zero: `int("0" + d) == int(d)` for a run
      of digits below the digit limit, so "007" reads as "7". */
  lemma LeadingZeroIgnored(d: string)
    requires 0 < |d| < MaxStrDigits && AllDigits(d)
    ensures ParseIntText("0" + d) == ParseIntText(d)
    ensures ParseIntText(d) == Some(DigitsValue(d))
  {
    var s := "0" + d;
    LeadingZeroValue(d);
    assert s[|s| - 1] == d[|d| - 1];
    UnsignedText(s);
    UnsignedText(d);
    assert DigitGroup(s) && DigitGroup(d);
    NoUnderscores(s);
    NoUnderscores(d);
  }

  /** A single underscore between two runs of digits changes nothing:
      `int(x + "_" + y) == int(x + y)`, failure included. */
  lemma UnderscoreIgnored(x: string, y: string)
    requires |x| > 0 && |y| > 0 && AllDigits(x) && AllDigits(y)
    ensures ParseIntText(x + "_" + y) == ParseIntText(x + y)
  {
    var s, t := x + "_" + y, x + y;
    JoinedGroups(x, y);
    UnsignedText(s);
    UnsignedText(t);
  }

  /** Both joins of two digit runs are digit groups, and dropping the
      underscore of the one turns it into the other. */
  lemma JoinedGroups(x: string, y: string)
    requires |x| > 0 && |y| > 0 && AllDigits(x) && AllDigits(y)
    ensures DigitGroup(x + "_" + y) && DigitGroup(x + y)
    ensures DropUnderscores(x + "_" + y) == x + y
  {
    UnderscoreJoin(x, y);
    var t := x + y;
    assert DigitGroup(t) by {
      assert forall i :: 0 <= i < |x| ==> t[i] == x[i];
      assert forall i :: |x| <= i < |t| ==> t[i] == y[i - |x|];
    }
    NoUnderscores(x);
    NoUnderscores(y);
    DropUnderscoresConcat(x + "_", y);
    DropUnderscoresConcat(x, "_");
    assert DropUnderscores("_") == [];
    assert x + [] == x;
  }

  /** A run of digits has no underscore to drop. */
  lemma NoUnderscores(d: string)
    requires AllDigits(d)
    ensures DropUnderscores(d) == d
  {
    assert forall i :: 0 <= i < |d| ==> IsDigit(d[i]) && d[i] != '_';
  }

  /** Two digit runs joined by one underscore form a digit group. */
  lemma UnderscoreJoin(x: string, y: string)
    requires |x| > 0 && |y| > 0 && AllDigits(x) && AllDigits(y)
    ensures DigitGroup(x + "_" + y)
  {
    var s := x + "_" + y;
    assert forall i :: 0 <= i < |x| ==> s[i] == x[i];
    assert s[|x|] == '_';
    assert forall i :: |x| < i < |s| ==> s[i] == y[i - |x| - 1];
    assert forall i :: 0 <= i < |s| ==> IsDigit(s[i]) || s[i] == '_';
    assert forall i :: 0 <= i < |s| - 1 && s[i] == '_' ==> i == |x|;
  }

  /** Text that starts and ends with a digit has no padding and no sign. */
  lemma UnsignedText(s: string)
    requires |s| > 0 && IsDigit(s[0]) && IsDigit(s[|s| - 1])
    ensures Trim(s, IsNumberSpace) == s && SplitSign(s) == (false, s)
  {
    TrimKeeps(s, IsNumberSpace);
  }

  /** `int()` refuses a doubled underscore. */
  lemma DoubleUnderscoreRejected()
    ensures ParseIntText("1__0").None?
  {
    var s := "1__0";
    TrimKeeps(s, IsNumberSpace);
    assert SplitSign(s) == (false, s);
    assert s[1] == '_' && s[2] == '_';
  }

  /** `int()` refuses a digit behind a separator that `str.isspace()`
      accepts but `int()` does not skip. */
  lemma SeparatorNotSkipped()
    ensures ParseIntText("\U{1C}5").None?
  {
  }

  /** `int()` refuses a decimal point in text. */
  lemma DecimalPointRejected()
    ensures ParseIntText("4.5").None?
  {
    var s := "4.5";
    UnsignedText(s);
    assert s[1] == '.';
  }
}

=== FILE: snapshots.dfy ===
/** The `videos` table and `save_video`'s `INSERT OR REPLACE`: one row per
    url, an AUTOINCREMENT id, and the binding of Python values to SQLite. */
module Snapshots {
  import opened Wrappers
  import opened Json
  import opened PyInt

  /** SQLite's storage classes for the values bound into the statement; a
      REAL is finite or an infinity. */
  datatype SqlValue =
    | SqlNull
    | SqlInteger(i: int)
    | SqlReal(f: real)
    | SqlInfinity(negative: bool)
    | SqlText(t: string)

  /** Why the statement does not run; none of these is caught. */
  datatype SqlError =
    | UnsupportedType   // a list or dict cannot be bound (ProgrammingError)
    | IntegerOverflow   // an int outside 64 bits cannot be bound (OverflowError)
    | DatabaseFull      // AUTOINCREMENT has already used the largest rowid (SQLITE_FULL)

  const MinInt64 := -0x8000_0000_0000_0000
  const MaxInt64 := 0x7FFF_FFFF_FFFF_FFFF

  /** Binding a Python `int`. */
  function BindInt(n: int): (r: Result<int, SqlError>)
    ensures r.Success? <==> MinInt64 <= n <= MaxInt64
    ensures r.Success? ==> r.value == n
    ensures r.Failure? ==> r.error == IntegerOverflow
  {
    if MinInt64 <= n <= MaxInt64 then Success(n) else Failure(IntegerOverflow)
  }

  /** Binding a decoded JSON value: `None`, `bool`, `int`, `float` and `str`
      have a storage class (`bool` is stored as the integer 0 or 1, and
      SQLite turns a NaN into NULL). */
  function Bind(v: Value): (r: Result<SqlValue, SqlError>)
    ensures r.Failure? <==> v.JArr? || v.JObj? || (v.JInt? && !(MinInt64 <= v.i <= MaxInt64))
    ensures r == Success(SqlNull) <==> v.JNull? || v.JNaN?
    ensures v.JBool? ==> r == Success(SqlInteger(if v.b then 1 else 0))
    ensures v.JStr? ==> r == Success(SqlText(v.s))
    ensures v.JInt? && r.Success? ==> r.value == SqlInteger(v.i)
    ensures v.JFloat? ==> r == Success(SqlReal(v.f))
    ensures v.JInfinity? ==> r == Success(SqlInfinity(v.negative))
  {
    match v
    case JNull => Success(SqlNull)
    case JBool(b) => Success(SqlInteger(if b then 1 else 0))
    case JInt(i) =>
      var n :- BindInt(i);
      Success(SqlInteger(n))
    case JFloat(f) => Success(SqlReal(f))
    case JInfinity(negative) => Success(SqlInfinity(negative))
    case JNaN => Success(SqlNull)
    case JStr(s) => Success(SqlText(s))
    case JArr(_) => Failure(UnsupportedType)
    case JObj(_) => Failure(UnsupportedType)
  }

  /** The affinity of the `TEXT` columns `author` and `title`: a number
      stored there becomes its text. An integer becomes its decimal digits,
      an infinity "Inf" or "-Inf", and a finite real the text `realText`
      gives it (SQLite's own `%!.15g` rendering). */
  function TextAffinity(v: SqlValue, realText: real -> string): (r: SqlValue)
    ensures r.SqlNull? || r.SqlText?
    ensures r.SqlNull? <==> v.SqlNull?
    ensures v.SqlText? ==> r == v
    ensures v.SqlInteger? ==> r == SqlText(Show(v.i))
    ensures v.SqlReal? ==> r == SqlText(realText(v.f))
    ensures v.SqlInfinity? ==> r == SqlText(if v.negative then "-Inf" else "Inf")
  {
    match v
    case SqlNull => SqlNull
    case SqlInteger(i) => SqlText(Show(i))
    case SqlReal(f) => SqlText(realText(f))
    case SqlInfinity(negative) => SqlText(if negative then "-Inf" else "Inf")
    case SqlText(t) => SqlText(t)
  }

  /** The text an integer is stored as reads back as that integer with
      `int()`, for every integer that can be bound. */
  lemma IntegerTextReadsBack(n: int, realText: real -> string)
    requires MinInt64 <= n <= MaxInt64
    ensures TextAffinity(SqlInteger(n), realText).SqlText?
    ensures ParseIntText(TextAffinity(SqlInteger(n), realText).t) == Some(n)
  {
    assert Ten(10) == 10_000_000_000;
    assert Ten(19) > 0x8000_0000_0000_0000;
    ShowNatLength(if n < 0 then -n else n, 19);
    ParseShow(n);
  }

  /** The columns of a row other than `id` and `url`. */
  datatype Columns = Columns(
    author: SqlValue,
    title: SqlValue,
    views: int,
    likes: int,
    comments: int,
    shares: int,
    descSha1: string,
    removedFlag: int,
    createdAt: string)

  datatype Row = Row(id: int, columns: Columns)

  /** The table: rows keyed by their UNIQUE url, and the largest id
      AUTOINCREMENT has handed out so far (its `sqlite_sequence` entry). */
  datatype Table = Table(rows: map<string, Row>, lastId: int)

  /** The table `CREATE TABLE IF NOT EXISTS` makes. */
  const Empty := Table(map[], 0)

  /** Every id lies between 1 and the last id handed out, and no two rows
      share an id. */
  ghost predicate Valid(t: Table) {
    && 0 <= t.lastId <= MaxInt64
    && (forall u :: u in t.rows ==> 1 <= t.rows[u].id <= t.lastId)
    && (forall u, v :: u in t.rows && v in t.rows && u != v ==> t.rows[u].id != t.rows[v].id)
  }

  lemma EmptyIsValid()
    ensures Valid(Empty)
  {
  }

  /** `INSERT OR REPLACE` with no id given: any row holding `url` is
      deleted and a new row is inserted under the next AUTOINCREMENT id,
      so even a replaced row gets a fresh id. */
  function InsertOrReplace(t: Table, url: string, columns: Columns): (r: Result<Table, SqlError>)
    requires Valid(t)
    ensures r.Failure? <==> t.lastId == MaxInt64
    ensures r.Failure? ==> r.error == DatabaseFull
    ensures r.Success? ==> Valid(r.value)
    ensures r.Success? ==> r.value.rows.Keys == t.rows.Keys + {url}
    ensures r.Success? ==> r.value.rows[url].columns == columns
    ensures r.Success? ==> forall u :: u in t.rows ==> r.value.rows[url].id > t.rows[u].id
    ensures r.Success? ==> r.value.rows[url].id > t.lastId && r.value.lastId == r.value.rows[url].id
    ensures r.Success? ==> forall u :: u in t.rows && u != url ==> r.value.rows[u] == t.rows[u]
  {
    if t.lastId == MaxInt64 then Failure(DatabaseFull)
    else
      var id := t.lastId + 1;
      Success(Table(t.rows[url := Row(id, columns)], id))
  }

  /** The row stored for `url`, if any. */
  function Lookup(t: Table, url: string): Option<Columns> {
    if url in t.rows then Some(t.rows[url].columns) else None
  }

  /** `save_video`: bind the parameters in order, then insert or replace.
      The first parameter that cannot be bound aborts the statement; the
      `TEXT` columns keep only NULL or text. */
  function Save(t: Table, url: string, author: Value, title: Value, views: int, likes: int,
                comments: int, shares: int, descSha1: string, removedFlag: int,
                createdAt: string, realText: real -> string): (r: Result<Table, SqlError>)
    requires Valid(t)
    ensures r.Success? <==>
      && Bind(author).Success? && Bind(title).Success?
      && MinInt64 <= views <= MaxInt64 && MinInt64 <= likes <= MaxInt64
      && MinInt64 <= comments <= MaxInt64 && MinInt64 <= shares <= MaxInt64
      && MinInt64 <= removedFlag <= MaxInt64
      && t.lastId < MaxInt64
    ensures r.Success? ==> Valid(r.value)
    ensures r.Success? ==> Lookup(r.value, url) == Some(Columns(
      TextAffinity(Bind(author).value, realText), TextAffinity(Bind(title).value, realText),
      views, likes, comments, shares, descSha1, removedFlag, createdAt))
    ensures r.Success? ==> var c := Lookup(r.value, url).value;
      (c.author.SqlNull? || c.author.SqlText?) && (c.title.SqlNull? || c.title.SqlText?)
    ensures r.Success? ==> r.value.rows.Keys == t.rows.Keys + {url}
    ensures r.Success? ==> forall u :: u in t.rows && u != url ==> r.value.rows[u] == t.rows[u]
    ensures r.Success? ==> r.value.rows[url].id > t.lastId
  {
    var a :- Bind(author);
    var ti :- Bind(title);
    var v :- BindInt(views);
    var l :- BindInt(likes);
    var c :- BindInt(comments);
    var s :- BindInt(shares);
    var f :- BindInt(removedFlag);
    InsertOrReplace(t, url, Columns(TextAffinity(a, realText), TextAffinity(ti, realText),
                                    v, l, c, s, descSha1, f, createdAt))
  }

  /** A numeric author is stored as text that `int()` reads back as the
      number; `True` is stored as "1". */
  lemma NumericAuthorStoredAsText(t: Table, url: string, n: int, title: Value,
                                  realText: real -> string)
    requires Valid(t)
    requires Save(t, url, JInt(n), title, 0, 0, 0, 0, "", 0, "", realText).Success?
    ensures var c := Lookup(Save(t, url, JInt(n), title, 0, 0, 0, 0, "", 0, "", realText).value, url).value;
      c.author.SqlText? && ParseIntText(c.author.t) == Some(n)
    ensures var c := Lookup(Save(t, url, JBool(true), title, 0, 0, 0, 0, "", 0, "", realText).value, url);
      Save(t, url, JBool(true), title, 0, 0, 0, 0, "", 0, "", realText).Success? ==> c.value.author == SqlText("1")
  {
    IntegerTextReadsBack(n, realText);
  }

  /** Saving the same url twice leaves one row for it, holding the second
      write's values; every other row is as before the first write. */
  lemma SaveTwice(t: Table, url: string, first: Columns, second: Columns)
    requires Valid(t)
    requires InsertOrReplace(t, url, first).Success?
    requires InsertOrReplace(InsertOrReplace(t, url, first).value, url, second).Success?
    ensures var t2 := InsertOrReplace(InsertOrReplace(t, url, first).value, url, second).value;
      && t2.rows.Keys == t.rows.Keys + {url}
      && Lookup(t2, url) == Some(second)
      && (forall u :: u in t.rows && u != url ==> t2.rows[u] == t.rows[u])
  {
  }

  /** Ids are never reused: a run of saves hands out strictly increasing ids. */
  lemma {:induction false} IdsIncrease(t: Table, writes: seq<(string, Columns)>)
    requires Valid(t)
    ensures var r := SaveAll(t, writes);
      r.Success? ==> Valid(r.value) && r.value.lastId == t.lastId + |writes|
    decreases |writes|
  {
    if writes != [] {
      var next := InsertOrReplace(t, writes[0].0, writes[0].1);
      if next.Success? {
        IdsIncrease(next.value, writes[1..]);
      }
    }
  }

  /** A run of `INSERT OR REPLACE` statements, stopping at the first failure. */
  function SaveAll(t: Table, writes: seq<(string, Columns)>): Result<Table, SqlError>
    requires Valid(t)
    decreases |writes|
  {
    if writes == [] then Success(t)
    else
      var next :- InsertOrReplace(t, writes[0].0, writes[0].1);
      SaveAll(next, writes[1..])
  }
}

=== FILE: text.dfy ===
/** The string operations the bot applies to user input and page text:
    `str.strip()`, `str.lower()` and the `in` substring test. */
module Text {

  /** The characters for which Python's `str.isspace()` holds; `str.strip()`
      with no argument removes exactly these from both ends. */
  predicate IsSpace(c: char) {
    || ('\t' <= c <= '\r')
    || ('\U{1C}' <= c <= '\U{1F}')
    || c == ' '
    || c == '\U{85}'
    || c == '\U{A0}'
    || c == '\U{1680}'
    || ('\U{2000}' <= c <= '\U{200A}')
    || c == '\U{2028}'
    || c == '\U{2029}'
    || c == '\U{202F}'
    || c == '\U{205F}'
    || c == '\U{3000}'
  }

  /** The characters `int()` skips around a number. CPython turns every
      non-ASCII space into ' ' and then skips only the ASCII spaces of
      its C-level `isspace`, so the separators U+001C..U+001F, which
      `str.isspace()` accepts, are not skipped. */
  predicate IsNumberSpace(c: char) {
    IsSpace(c) && !('\U{1C}' <= c <= '\U{1F}')
  }

  /** Number of leading characters of `s` in the class `sp`. */
  function LeadingCount(s: string, sp: char -> bool): (k: nat)
    ensures k <= |s|
    ensures forall i :: 0 <= i < k ==> sp(s[i])
    ensures k == |s| || !sp(s[k])
  {
    if |s| > 0 && sp(s[0]) then 1 + LeadingCount(s[1..], sp) else 0
  }

  /** Number of trailing characters of `s` in the class `sp`. */
  function TrailingCount(s: string, sp: char -> bool): (k: nat)
    ensures k <= |s|
    ensures forall i :: |s| - k <= i < |s| ==> sp(s[i])
    ensures k == |s| || !sp(s[|s| - k - 1])
  {
    if |s| > 0 && sp(s[|s| - 1]) then 1 + TrailingCount(s[..|s| - 1], sp) else 0
  }

  /** `s` with the maximal runs of `sp` characters removed from both ends:
      the result is the slice that starts after the leading run, everything
      after it belongs to `sp`, and it neither starts nor ends with one. */
  function Trim(s: string, sp: char -> bool): (r: string)
    ensures r == [] || (!sp(r[0]) && !sp(r[|r| - 1]))
    ensures LeadingCount(s, sp) + |r| <= |s|
    ensures r == s[LeadingCount(s, sp)..LeadingCount(s, sp) + |r|]
    ensures forall i :: LeadingCount(s, sp) + |r| <= i < |s| ==> sp(s[i])
  {
    var rest := s[LeadingCount(s, sp)..];
    rest[..|rest| - TrailingCount(rest, sp)]
  }

  /** Trimming removes exactly the padding around a text whose ends are
      not in the class. */
  lemma TrimPadding(pre: string, s: string, post: string, sp: char -> bool)
    requires forall i :: 0 <= i < |pre| ==> sp(pre[i])
    requires forall i :: 0 <= i < |post| ==> sp(post[i])
    requires |s| > 0 && !sp(s[0]) && !sp(s[|s| - 1])
    ensures Trim(pre + s + post, sp) == s
  {
    var x := pre + s + post;
    var k := LeadingCount(x, sp);
    assert x[|pre|] == s[0];
    assert forall j :: 0 <= j < |pre| ==> x[j] == pre[j];
    assert k == |pre|;
    var rest := x[k..];
    assert rest == s + post;
    var m := TrailingCount(rest, sp);
    assert rest[|s| - 1] == s[|s| - 1];
    assert forall j :: |s| <= j < |rest| ==> rest[j] == post[j - |s|];
    assert m == |post|;
    assert rest[..|rest| - m] == s;
  }

  /** Python's `str.strip()`: the result follows the run of leading
      whitespace, only whitespace follows it, and it neither starts nor
      ends with whitespace. */
  function Strip(s: string): (r: string)
    ensures r == [] || (!IsSpace(r[0]) && !IsSpace(r[|r| - 1]))
    ensures LeadingCount(s, IsSpace) + |r| <= |s|
    ensures r == s[LeadingCount(s, IsSpace)..LeadingCount(s, IsSpace) + |r|]
    ensures forall i :: LeadingCount(s, IsSpace) + |r| <= i < |s| ==> IsSpace(s[i])
  {
    Trim(s, IsSpace)
  }

  /** Trimming twice removes nothing more. */
  lemma TrimIdempotent(s: string, sp: char -> bool)
    ensures Trim(Trim(s, sp), sp) == Trim(s, sp)
  {
    var r := Trim(s, sp);
    if r != [] {
      assert LeadingCount(r, sp) == 0;
      assert TrailingCount(r, sp) == 0;
    }
  }

  /** ASCII lower-casing of one character. */
  function LowerChar(c: char): char {
    if 'A' <= c <= 'Z' then (c as int + 32) as char else c
  }

  /** Lower-casing of a whole text, character by character. */
  function ToLower(s: string): (r: string)
    ensures |r| == |s|
    ensures forall i :: 0 <= i < |s| ==> r[i] == LowerChar(s[i])
  {
    if s == [] then [] else [LowerChar(s[0])] + ToLower(s[1..])
  }

  /** Lower-casing commutes with concatenation. */
  lemma ToLowerConcat(a: string, b: string)
    ensures ToLower(a + b) == ToLower(a) + ToLower(b)
  {
    assert forall i :: 0 <= i < |a + b| ==> ToLower(a + b)[i] == (ToLower(a) + ToLower(b))[i];
  }

  /** `needle` occurs in `s` starting at index `i`. */
  predicate OccursAt(s: string, needle: string, i: int) {
    0 <= i && i + |needle| <= |s| && s[i..i + |needle|] == needle
  }

  /** An occurrence starts with the needle's first character. */
  lemma OccursAtStart(s: string, needle: string, i: int)
    ensures OccursAt(s, needle, i) && |needle| > 0 ==> s[i] == needle[0]
  {
    if OccursAt(s, needle, i) && |needle| > 0 {
      assert s[i..i + |needle|][0] == s[i];
    }
  }

  lemma OccursAtShift(s: string, needle: string, i: int)
    requires |s| > 0 && 0 <= i
    ensures OccursAt(s[1..], needle, i) <==> OccursAt(s, needle, i + 1)
  {
    if 0 <= i && i + |needle| <= |s| - 1 {
      assert s[1..][i..i + |needle|] == s[i + 1..i + 1 + |needle|];
    }
  }

  /** Python's `needle in s` for strings. */
  function Contains(s: string, needle: string): (r: bool)
    ensures r <==> exists i :: OccursAt(s, needle, i)
    decreases |s|
  {
    if |s| < |needle| then false
    else if s[..|needle|] == needle then (assert OccursAt(s, needle, 0); true)
    else
      var r := Contains(s[1..], needle);
      assert r ==> exists i :: OccursAt(s, needle, i) by {
        if r {
          var i :| OccursAt(s[1..], needle, i);
          OccursAtShift(s, needle, i);
        }
      }
      assert (exists i :: OccursAt(s, needle, i)) ==> r by {
        if exists i :: OccursAt(s, needle, i) {
          var i :| OccursAt(s, needle, i);
          assert i != 0;
          OccursAtShift(s, needle, i - 1);
        }
      }
      r
  }

  /** An occurrence inside a concatenation is found by `Contains`. */
  lemma ContainsMiddle(a: string, needle: string, b: string)
    ensures Contains(a + needle + b, needle)
  {
    assert (a + needle + b)[|a|..|a| + |needle|] == needle;
    assert OccursAt(a + needle + b, needle, |a|);
  }
}

=== FILE: utf8.dfy ===
/** `str.encode()` with its default codec, UTF-8, and a decoder that
    inverts it: the bytes handed to the digest determine the text. */
module Utf8 {
  import opened Wrappers

  newtype byte = x: int | 0 <= x < 256

  /** The UTF-8 encoding of one Unicode scalar value, 1 to 4 bytes. */
  function EncodeChar(c: char): (r: seq<byte>)
    ensures 1 <= |r| <= 4
    ensures |r| == 1 <==> c as int < 0x80
  {
    var cp := c as int;
    if cp < 0x80 then
      [cp as byte]
    else if cp < 0x800 then
      [(0xC0 + cp / 64) as byte, (0x80 + cp % 64) as byte]
    else if cp < 0x1_0000 then
      [(0xE0 + cp / 4096) as byte, (0x80 + cp / 64 % 64) as byte, (0x80 + cp % 64) as byte]
    else
      [(0xF0 + cp / 262144) as byte, (0x80 + cp / 4096 % 64) as byte,
       (0x80 + cp / 64 % 64) as byte, (0x80 + cp % 64) as byte]
  }

  /** `s.encode()`. */
  function Encode(s: string): (r: seq<byte>)
    ensures |r| >= |s|
    ensures s == [] <==> r == []
  {
    if s == [] then [] else EncodeChar(s[0]) + Encode(s[1..])
  }

  predicate IsContinuation(b: byte) {
    0x80 <= b < 0xC0
  }

  /** The six data bits of a continuation byte. */
  function Payload(b: byte): int {
    b as int - 0x80
  }

  /** The character for code point `cp`, if `cp` is a Unicode scalar value,
      paired with the number of bytes it was read from. */
  function Scalar(cp: int, width: nat): Option<(char, nat)> {
    if 0 <= cp < 0xD800 || 0xE000 <= cp < 0x11_0000 then Some((cp as char, width)) else None
  }

  /** Reads the first character of a non-empty byte sequence. */
  function DecodeFirst(bs: seq<byte>): (r: Option<(char, nat)>)
    requires |bs| > 0
    ensures r.Some? ==> 1 <= r.value.1 <= |bs|
  {
    var b0 := bs[0] as int;
    if b0 < 0x80 then
      Scalar(b0, 1)
    else if 0xC0 <= b0 < 0xE0 && |bs| >= 2 && IsContinuation(bs[1]) then
      Scalar((b0 - 0xC0) * 64 + Payload(bs[1]), 2)
    else if 0xE0 <= b0 < 0xF0 && |bs| >= 3 && IsContinuation(bs[1]) && IsContinuation(bs[2]) then
      Scalar((b0 - 0xE0) * 4096 + Payload(bs[1]) * 64 + Payload(bs[2]), 3)
    else if 0xF0 <= b0 < 0xF8 && |bs| >= 4 && IsContinuation(bs[1]) && IsContinuation(bs[2])
         && IsContinuation(bs[3]) then
      Scalar((b0 - 0xF0) * 262144 + Payload(bs[1]) * 4096 + Payload(bs[2]) * 64 + Payload(bs[3]), 4)
    else
      None
  }

  /** A decoder that inverts `Encode`. It is more lenient than Python's
      `bs.decode()`: it accepts overlong forms that Python rejects. */
  function Decode(bs: seq<byte>): Option<string>
    decreases |bs|
  {
    if bs == [] then Some([])
    else
      var (c, width) :- DecodeFirst(bs);
      var rest :- Decode(bs[width..]);
      Some([c] + rest)
  }

  lemma DecodeTwo(c: char, rest: seq<byte>)
    requires 0x80 <= c as int < 0x800
    ensures DecodeFirst(EncodeChar(c) + rest) == Some((c, 2))
  {
    var cp := c as int;
    var q, r := cp / 64, cp % 64;
    assert cp == q * 64 + r && 2 <= q < 32;
    var bs := EncodeChar(c) + rest;
    assert bs[0] as int == 0xC0 + q && Payload(bs[1]) == r;
  }

  lemma DecodeThree(c: char, rest: seq<byte>)
    requires 0x800 <= c as int < 0x1_0000
    ensures DecodeFirst(EncodeChar(c) + rest) == Some((c, 3))
  {
    var cp := c as int;
    var q, r := cp / 64, cp % 64;
    var q2, r2 := q / 64, q % 64;
    assert cp == q * 64 + r && q == q2 * 64 + r2;
    assert q2 == cp / 4096 && q2 < 16;
    var bs := EncodeChar(c) + rest;
    assert bs[0] as int == 0xE0 + q2 && Payload(bs[1]) == r2 && Payload(bs[2]) == r;
  }

  lemma DecodeFour(c: char, rest: seq<byte>)
    requires 0x1_0000 <= c as int
    ensures DecodeFirst(EncodeChar(c) + rest) == Some((c, 4))
  {
    var cp := c as int;
    var q, r := cp / 64, cp % 64;
    var q2, r2 := q / 64, q % 64;
    var q3, r3 := q2 / 64, q2 % 64;
    assert cp == q * 64 + r && q == q2 * 64 + r2 && q2 == q3 * 64 + r3;
    assert q2 == cp / 4096 && q3 == cp / 262144 && q3 < 8;
    var bs := EncodeChar(c) + rest;
    assert bs[0] as int == 0xF0 + q3;
    assert Payload(bs[1]) == r3 && Payload(bs[2]) == r2 && Payload(bs[3]) == r;
  }

  /** The decoder reads back exactly the bytes of the first encoded character. */
  lemma DecodeFirstEncodeChar(c: char, rest: seq<byte>)
    ensures DecodeFirst(EncodeChar(c) + rest) == Some((c, |EncodeChar(c)|))
  {
    var cp := c as int;
    if cp < 0x80 {
    } else if cp < 0x800 {
      DecodeTwo(c, rest);
    } else if cp < 0x1_0000 {
      DecodeThree(c, rest);
    } else {
      DecodeFour(c, rest);
    }
  }

  /** Round trip: decoding the encoding of any text gives the text back. */
  lemma {:induction false} DecodeEncode(s: string)
    ensures Decode(Encode(s)) == Some(s)
  {
    if s != [] {
      var head := EncodeChar(s[0]);
      var bs := Encode(s);
      assert bs == head + Encode(s[1..]);
      DecodeFirstEncodeChar(s[0], Encode(s[1..]));
      assert bs[|head|..] == Encode(s[1..]);
      DecodeEncode(s[1..]);
      assert [s[0]] + s[1..] == s;
    }
  }

  /** Distinct texts have distinct encodings. */
  lemma EncodeInjective(a: string, b: string)
    requires Encode(a) == Encode(b)
    ensures a == b
  {
    DecodeEncode(a);
    DecodeEncode(b);
  }
}

=== FILE: wrappers.dfy ===
/** Failure-compatible wrappers used throughout the model. */
module Wrappers {

  /** A value that may be absent: Python's `None` result, or a step that raised. */
  datatype Option<+T> = None | Some(value: T) {
    predicate IsFailure() {
      None?
    }

    function PropagateFailure<U>(): Option<U>
      requires None?
    {
      None
    }

    function Extract(): T
      requires Some?
    {
      value
    }
  }

  /** A computation that either succeeds or stops with an error value. */
  datatype Result<+T, +E> = Success(value: T) | Failure(error: E) {
    predicate IsFailure() {
      Failure?
    }

    function PropagateFailure<U>(): Result<U, E>
      requires Failure?
    {
      Failure(error)
    }

    function Extract(): T
      requires Success?
    {
      value
    }
  }
}
